=== FILE: README.md ===
# Feedback board: storage, REST handlers and the emoji-reaction toggle

This project is a Dafny model of the core of a small feedback board. Signed-in
users post feedback items, vote on them with +1 or -1, comment on them and
react to them with emojis. It models four parts of the system:

- **`DatabaseStorage`** (`server/storage.ts`): the five tables (users,
  feedbacks, votes, comments, reactions) and their serial id counters.
  - It is the class `Storage.DatabaseStorage`. Each table is a `seq` field,
    and each inserting method appends one row and advances its counter.
  - Reads (`getFeedback`, `getFeedbacks`, `getComments`, `getReactions`, …) are
    functions over those fields.
  - Aggregates are stated as counts of filtered rows. For example, `upvotes` is
    the number of vote rows on the feedback whose `isUpvote` is 1.
- **The seven REST handlers** (`server/routes.ts`): methods in module `Routes`.
  - Each takes what its request carries: the session's user (`None` when
    not authenticated), the path `:id`, and the JSON body or the `:emoji`
    path segment where the handler reads one. The listing takes only the
    search term. Handlers that insert a timestamped row also take its
    `createdAt`.
  - Each returns the HTTP status it answers with and updates the storage the
    way the handler does.
- **The request validators** (`shared/schema.ts`): module `Schema`. A JSON
  body is a map from field names to `JNumber`, `JString` or any other value.
  The parsers accept exactly the bodies the zod schemas accept.
- **The emoji-reaction widget** (`client/src/components/emoji-reactions.tsx`):
  module `EmojiReactions`. It holds:
  - the fixed picker of seven emojis;
  - the `handleReaction` toggle, which removes a reaction the user already
    made and otherwise adds one, then closes the picker;
  - the `count > 0` display filter;
  - the request the toggle sends.

Strings are sequences of UTF-16 code units (`Schema.Text`), because the
length limits (`max(2)` for an emoji, and so on) count UTF-16 code units.

Several behaviours of the code are modelled as written, and the contracts
state them:

- `getFeedback` computes its reaction aggregate without a user, so
  `userReacted` is about user id 0.
- `userVote` is always absent in the views.
- An author whose user row is missing, or whose username is empty, is shown
  as "Unknown".
- The vote, comment and reaction routes do not check that the feedback exists.
- Deleting a feedback deletes only the feedback row.
- On a duplicate username, the insert fails but the serial counter still
  advances.
- The search uses `LIKE` (server/storage.ts:93-94), which in PostgreSQL is a
  case-sensitive substring match.

## Model

| member | source | states |
|---|---|---|
| Storage.DatabaseStorage.GetUser | server/storage.ts:47-50 | absent exactly when no user row has the id; otherwise the row with that id |
| Storage.DatabaseStorage.GetUserByUsername | server/storage.ts:52-55 | absent exactly when no row has the username; otherwise a row with that username |
| Storage.DatabaseStorage.CreateUser | server/storage.ts:57-60 | a new username gets one appended row with the next serial id; a taken one (unique constraint) leaves the table unchanged but still consumes the id; usernames stay unique |
| Storage.DatabaseStorage.Author | server/storage.ts:74 | the author name is never empty: the user's username when it is non-empty, otherwise "Unknown" |
| Storage.DatabaseStorage.GetFeedback | server/storage.ts:67-85 | absent iff no feedback has the id; otherwise title, description, userId and createdAt are those of the row with the id, author is Author(userId) and comments are GetComments(id); upvotes and downvotes are the counts of the feedback's votes with isUpvote 1 and -1 and together at most its vote count; userVote is absent; reactions are the aggregate for user 0 |
| Storage.DatabaseStorage.GetFeedbacks | server/storage.ts:87-101 | one view per row the search selects, in order and with that row's id (every feedback without a search term or with an empty one); every view carries the user-0 reaction aggregate |
| Storage.GetFeedbacksAgreesWithGetFeedback | server/storage.ts:87-101 | every listed view is exactly what getFeedback answers for its id |
| Storage.SearchFeedbacksSelects | server/storage.ts:90-97 | a feedback is listed iff its title or its description contains the search text (case-sensitive); every listed row is a feedback row |
| Storage.DatabaseStorage.CreateFeedback | server/storage.ts:62-65 | one row appended with the next serial id and the given fields; the other tables are untouched |
| Storage.DatabaseStorage.DeleteFeedback | server/storage.ts:103-105 | removes exactly the rows with the id from the feedbacks table; votes, comments and reactions stay |
| Storage.DeleteFeedbackRemovesOnlyThatRow | server/storage.ts:103-105 | after the delete no feedback has the id, and every other feedback row remains |
| Storage.DatabaseStorage.CreateVote | server/storage.ts:107-110 | one vote row appended with the next serial id |
| Storage.DatabaseStorage.GetVote | server/storage.ts:112-123 | absent iff the user has no vote on the feedback; otherwise a vote of that user on that feedback |
| Storage.DatabaseStorage.UpdateVote | server/storage.ts:125-132 | every row with the id gets the new isUpvote and nothing else changes; the answer is absent iff no row has the id, otherwise the updated row from the table |
| Storage.SetIsUpvoteChangesOnlyIsUpvote | server/storage.ts:125-132 | the update keeps length, ids, feedbackIds and userIds, and changes isUpvote only on the row with the id |
| Storage.SetIsUpvoteKeepsOneVotePerUser | server/storage.ts:125-132 | updating a vote in place keeps at most one vote per user per feedback |
| Storage.InsertVoteKeepsOneVotePerUser | server/routes.ts:53-64 | inserting a vote for a user who has none on that feedback keeps at most one vote per user per feedback |
| Storage.VoteTallyBound | server/storage.ts:79-80 | the upvotes plus the downvotes of a feedback never exceed its number of votes |
| Storage.DatabaseStorage.CreateComment | server/storage.ts:134-137 | one comment row appended with the next serial id |
| Storage.DatabaseStorage.GetComments | server/storage.ts:139-145 | exactly the feedback's comments (the same multiset as the filtered table), ordered newest first |
| Storage.InsertByDate | server/storage.ts:144 | inserting a comment into a newest-first list keeps it newest first and is a permutation |
| Storage.SortNewestFirst | server/storage.ts:144 | the result is ordered newest first and is a permutation of the input |
| Storage.DatabaseStorage.CreateReaction | server/storage.ts:148-159 | the table becomes every row with another (feedback, user, emoji) key followed by one new row with the next serial id |
| Storage.CreateReactionOneRow | server/storage.ts:148-159 | after the upsert exactly one row has the reaction's key and it is the new row |
| Storage.CreateReactionOtherKeys | server/storage.ts:150-155 | rows with any other key are exactly as before |
| Storage.CreateReactionKeepsOneReactionPerKey | server/storage.ts:148-159 | at most one reaction per (feedback, user, emoji) is preserved |
| Storage.CreateReactionTwice | server/storage.ts:148-173 | reacting twice with the same emoji leaves the aggregate the same as reacting once |
| Storage.DatabaseStorage.GetReactions | server/storage.ts:161-173 | one entry per distinct emoji of the feedback's rows, none twice; each count is that emoji's number of rows; userReacted iff the given user (0 when absent) has such a row |
| Storage.ReactionCounts | server/storage.ts:161-173 | as many aggregate entries as the feedback's rows have distinct emojis |
| Storage.ReactionCountsEntries | server/storage.ts:161-173 | every entry's count is positive and equals that emoji's row count, and userReacted holds iff the user has a row with that emoji |
| Storage.ReactionCountsCover | server/storage.ts:161-173 | every emoji the feedback's rows carry has an entry |
| Storage.ReactionCountsDistinct | server/storage.ts:170 | no emoji has two entries |
| Storage.DatabaseStorage.DeleteReaction | server/storage.ts:175-182 | removes exactly the rows with the (feedback, user, emoji) key |
| Storage.DeleteReactionRemovesKey | server/storage.ts:175-182 | afterwards no row has the key and every other row is kept |
| Storage.DeleteReactionKeepsOneReactionPerKey | server/storage.ts:175-182 | at most one reaction per key is preserved |
| Schema.ParseFeedback | shared/schema.ts:47-55 | accepts iff title is a string of 5..100 code units and description a string of 20..1000, and returns them |
| Schema.ParseComment | shared/schema.ts:57-64 | accepts iff content is a string of 1..500 code units and feedbackId a number, and returns them |
| Schema.ParseReaction | shared/schema.ts:66-73 | accepts iff emoji is a string of 1..2 code units and feedbackId a number, and returns them |
| Routes.VoteValue | server/routes.ts:47-50 | a vote body is valid iff isUpvote is the number 1 or -1 |
| Routes.ListFeedbacks | server/routes.ts:10-14 | needs no session; answers 200 with the view of every feedback the search selects |
| Routes.CreateFeedback | server/routes.ts:16-30 | 401 without a session and nothing changes; 400 on an invalid body and nothing changes; otherwise 201 and one row owned by the session user |
| Routes.DeleteFeedback | server/routes.ts:32-41 | 401, then 404 for a missing id, then 403 for another user's feedback, each changing nothing; otherwise 204 and the feedback row is deleted |
| Routes.CastVote | server/routes.ts:43-65 | 401, then 400 unless isUpvote is 1 or -1; an existing vote is updated in place (200), else one is inserted (201); at most one vote per user per feedback is preserved |
| Routes.PostComment | server/routes.ts:67-84 | 401; 400 unless content is 1..500 code units; otherwise 201 and the stored feedbackId is the path's |
| Routes.PostReaction | server/routes.ts:87-105 | 401; 400 unless emoji is 1..2 code units; otherwise 201, the key's old row is replaced and the stored feedbackId is the path's |
| Routes.DeleteReaction | server/routes.ts:107-117 | 401 without a session; otherwise 204 whether or not a row matched |
| EmojiReactions.AvailableEmojisPassSchema | client/src/components/emoji-reactions.tsx:12 | seven distinct emojis, each two UTF-16 code units and so accepted by the reaction schema |
| EmojiReactions.FindUserReaction | client/src/components/emoji-reactions.tsx:45 | finds the first entry with the emoji and userReacted, as `find` does, and is absent iff none exists |
| EmojiReactions.ChooseRequest | client/src/components/emoji-reactions.tsx:44-51 | exactly one request for that emoji; a remove iff an entry with that emoji has userReacted |
| EmojiReactions.EmojiReactionsWidget.constructor | client/src/components/emoji-reactions.tsx:24 | the picker starts closed |
| EmojiReactions.EmojiReactionsWidget.SetIsOpen | client/src/components/emoji-reactions.tsx:70 | the picker's open state becomes the given one |
| EmojiReactions.EmojiReactionsWidget.HandleReaction | client/src/components/emoji-reactions.tsx:44-52 | returns the toggle's request and closes the picker |
| EmojiReactions.Shown | client/src/components/emoji-reactions.tsx:56-58 | exactly the entries with count > 0 are shown, none more than once |
| EmojiReactions.SendRequest | client/src/components/emoji-reactions.tsx:26-42 | an add with a valid emoji posts it, the key's row is replaced and the id counter advances (201); an add with an invalid emoji changes nothing (400); a remove deletes the key's rows and leaves the counter (204); no session changes nothing (401) |
| EmojiReactions.FeedbackViewToggleAlwaysAdds | server/storage.ts:75 | when no reaction row belongs to user 0, every entry of a feedback view has userReacted false and the toggle always chooses add |

## Left out

- Sessions, passport and password hashing: the user is a parameter. `server/auth.ts` is not part of this model.
- HTTP and JSON: request and response bodies are not modelled, except the body fields that the validators and handlers read. The JSON a response carries is not modelled.
- Non-integer path ids: `Number(req.params.id)` on text that is not a number gives NaN. The model takes integer ids, and JSON numbers are integers.
- URL decoding of the `:emoji` path segment.
- `LIKE` wildcards: a `%`, `_` or backslash inside the search text is matched literally by the model, while PostgreSQL would treat it as a pattern.
- Time: `createdAt` is a natural number supplied by the caller. `defaultNow()` is not modelled, and neither is the order among comments with equal timestamps.
- Row order where the queries have no `ORDER BY`: tables keep insertion order. The reaction aggregate keeps the order of each emoji's first row.
- Concurrency: the `Promise.all` in `getFeedbacks` is modelled as sequential. The race between `getVote` and `createVote` (two simultaneous first votes), and the race between the delete and the insert in `createReaction`, are not modelled.
- Database failures other than the unique violation on usernames, and the routes' 500 paths.
- The client's query-cache invalidation and the React rendering of buttons and popovers. The other client components, the social-share widget and `web_framework.cpp` are not part of this model.
- Storage.DatabaseStorage.GetFeedbacks: with or without a search term, the contract fixes each view's id and reaction aggregate but not its other fields. Storage.GetFeedbacksAgreesWithGetFeedback states the whole view, and Storage.SearchFeedbacksSelects states the selection.

=== FILE: emoji_reactions.dfy ===
/**
 * The emoji-reaction widget: the fixed picker, the add-or-remove decision made
 * over the reaction aggregate, the `count > 0` display filter, and the two
 * requests the widget sends.
 */
module EmojiReactions {
  import opened Wrappers
  import opened Rows
  import opened Schema
  import opened Storage
  import Routes

  /** `AVAILABLE_EMOJIS`, each written as its UTF-16 code units. */
  const AVAILABLE_EMOJIS: seq<Text> := [
    [0xD83D, 0xDC4D],  // thumbs up sign
    [0x2764, 0xFE0F],  // heavy black heart + emoji variation selector
    [0xD83D, 0xDE04],  // smiling face with open mouth and smiling eyes
    [0xD83C, 0xDF89],  // party popper
    [0xD83D, 0xDE4F],  // person with folded hands
    [0xD83D, 0xDCA1],  // electric light bulb
    [0xD83D, 0xDD25]   // fire
  ]

  /** The picker offers seven distinct emojis of two code units each, so every one passes the reaction schema. */
  lemma AvailableEmojisPassSchema()
    ensures |AVAILABLE_EMOJIS| == 7 && NoDuplicates(AVAILABLE_EMOJIS)
    ensures forall i :: 0 <= i < |AVAILABLE_EMOJIS| ==> |AVAILABLE_EMOJIS[i]| == 2 && ValidEmoji(AVAILABLE_EMOJIS[i])
  {
  }

  /** The mutation `handleReaction` fires: the add or the remove of one emoji. */
  datatype ReactionRequest = Add(emoji: Text) | Remove(emoji: Text)

  /** `reactions.find(r => r.emoji === emoji && r.userReacted)`. */
  function FindUserReaction(reactions: seq<ReactionCount>, emoji: Text): (r: Option<ReactionCount>)
    ensures r.None? <==> forall i :: 0 <= i < |reactions| ==> !(reactions[i].emoji == emoji && reactions[i].userReacted)
    ensures r.Some? ==> r.value in reactions && r.value.emoji == emoji && r.value.userReacted
    ensures r.Some? ==> exists i :: (0 <= i < |reactions| && reactions[i] == r.value &&
      forall j :: 0 <= j < i ==> !(reactions[j].emoji == emoji && reactions[j].userReacted))
  {
    if reactions == [] then None
    else if reactions[0].emoji == emoji && reactions[0].userReacted then Some(reactions[0])
    else FindUserReaction(reactions[1..], emoji)
  }

  /** The toggle: remove when the user already reacted with that emoji, otherwise add; always exactly one of the two. */
  function ChooseRequest(reactions: seq<ReactionCount>, emoji: Text): (req: ReactionRequest)
    ensures req.emoji == emoji
    ensures req.Remove? <==> exists i :: 0 <= i < |reactions| && reactions[i].emoji == emoji && reactions[i].userReacted
  {
    if FindUserReaction(reactions, emoji).Some? then Remove(emoji) else Add(emoji)
  }

  predicate Counted(r: ReactionCount) { r.count > 0 }

  /** The aggregate entries shown as buttons: those with `count > 0`, each no more often than in the aggregate. */
  function Shown(reactions: seq<ReactionCount>): (r: seq<ReactionCount>)
    ensures forall i :: 0 <= i < |r| ==> r[i] in reactions && r[i].count > 0
    ensures forall i :: 0 <= i < |reactions| && reactions[i].count > 0 ==> reactions[i] in r
    ensures multiset(r) <= multiset(reactions)
  {
    FilterSubMultiset(reactions, Counted);
    Filter(reactions, Counted)
  }

  /** The component's state: its props and whether the picker is open. */
  class EmojiReactionsWidget {
    const feedbackId: int
    const reactions: seq<ReactionCount>
    var isOpen: bool

    /** `useState(false)`: the picker starts closed. */
    constructor (feedbackId: int, reactions: seq<ReactionCount>)
      ensures this.feedbackId == feedbackId && this.reactions == reactions && !isOpen
    {
      this.feedbackId := feedbackId;
      this.reactions := reactions;
      isOpen := false;
    }

    /** The popover's `onOpenChange`. */
    method SetIsOpen(open: bool)
      modifies this
      ensures isOpen == open
    {
      isOpen := open;
    }

    /** `handleReaction`: choose the request, then close the picker. */
    method HandleReaction(emoji: Text) returns (req: ReactionRequest)
      modifies this
      ensures req == ChooseRequest(reactions, emoji)
      ensures !isOpen
    {
      req := ChooseRequest(reactions, emoji);
      isOpen := false;
    }
  }

  /**
   * The two mutations' requests as the server handles them: an add is
   * `POST /api/feedbacks/:id/reactions` with body `{ emoji }`, a remove is
   * `DELETE /api/feedbacks/:id/reactions/:emoji`.
   */
  method SendRequest(db: DatabaseStorage, user: Option<int>, feedbackId: int, req: ReactionRequest, createdAt: nat)
    returns (status: int)
    requires db.Valid()
    modifies db`reactions, db`nextReactionId
    ensures db.Valid()
    ensures user.Some? && req.Remove? ==>
      && status == Routes.NO_CONTENT
      && db.reactions == WithoutReaction(old(db.reactions), feedbackId, user.value, req.emoji)
      && db.nextReactionId == old(db.nextReactionId)
    ensures user.Some? && req.Add? && ValidEmoji(req.emoji) ==>
      && status == Routes.CREATED
      && db.reactions == WithReaction(old(db.reactions), Reaction(old(db.nextReactionId), feedbackId, user.value, req.emoji, createdAt))
      && db.nextReactionId == old(db.nextReactionId) + 1
    ensures user.Some? && req.Add? && !ValidEmoji(req.emoji) ==> status == Routes.BAD_REQUEST && unchanged(db)
    ensures user.None? ==> status == Routes.UNAUTHORIZED && unchanged(db)
  {
    match req
    case Add(e) =>
      status := Routes.PostReaction(db, user, feedbackId, map["emoji" := JString(e)], createdAt);
    case Remove(e) =>
      status := Routes.DeleteReaction(db, user, feedbackId, e);
  }

  /**
   * `getFeedback` asks for the aggregate without a user, so `userReacted` is
   * about user id 0. When no reaction row belongs to user 0 (serial user ids
   * start at 1), every entry of a feedback view says `userReacted = false`
   * and the widget's toggle always chooses to add, never to remove.
   */
  lemma FeedbackViewToggleAlwaysAdds(db: DatabaseStorage, id: int, emoji: Text)
    requires forall k :: 0 <= k < |db.reactions| ==> db.reactions[k].userId != 0
    requires db.GetFeedback(id).Some?
    ensures forall i :: 0 <= i < |db.GetFeedback(id).value.reactions| ==> !db.GetFeedback(id).value.reactions[i].userReacted
    ensures ChooseRequest(db.GetFeedback(id).value.reactions, emoji) == Add(emoji)
  {
    ReactionCountsEntries(db.reactions, id, 0);
  }
}

=== FILE: routes.dfy ===
/**
 * The REST handlers registered by `registerRoutes`. Each takes what its
 * request carries: the session's user (`None` when the request is not
 * authenticated), the path's `:id`, and the JSON body or the `:emoji` path
 * segment where the handler reads one; the listing takes only the search
 * term. Handlers that insert a timestamped row also take its `createdAt`.
 * Each answers the HTTP status it sends. Checks run in the handler's order: authentication
 * (401), body shape (400), existence (404), ownership (403), then storage.
 */
module Routes {
  import opened Wrappers
  import opened Rows
  import opened Schema
  import opened Storage

  const OK: int := 200
  const CREATED: int := 201
  const NO_CONTENT: int := 204
  const BAD_REQUEST: int := 400
  const UNAUTHORIZED: int := 401
  const FORBIDDEN: int := 403
  const NOT_FOUND: int := 404

  /** `typeof isUpvote === "number" && [1, -1].includes(isUpvote)`: the vote a body carries, if it is a valid one. */
  function VoteValue(body: Body): (r: Option<int>)
    ensures r.Some? <==> "isUpvote" in body && body["isUpvote"] in {JNumber(UPVOTE), JNumber(DOWNVOTE)}
    ensures r.Some? ==> r.value == UPVOTE || r.value == DOWNVOTE
  {
    match NumberField(body, "isUpvote")
    case Some(n) => if n == UPVOTE || n == DOWNVOTE then Some(n) else None
    case None => None
  }

  /** GET /api/feedbacks: no authentication; every feedback, or those the search selects. */
  method ListFeedbacks(db: DatabaseStorage, search: Option<Text>) returns (status: int, feedbacks: seq<FeedbackWithVotes>)
    ensures status == OK
    ensures |feedbacks| == |SearchFeedbacks(db.feedbacks, search)|
    ensures forall i :: 0 <= i < |feedbacks| ==> feedbacks[i] == db.View(SearchFeedbacks(db.feedbacks, search)[i])
  {
    status, feedbacks := OK, db.GetFeedbacks(search);
  }

  /** POST /api/feedbacks. */
  method CreateFeedback(db: DatabaseStorage, user: Option<int>, body: Body, createdAt: nat) returns (status: int)
    requires db.Valid()
    modifies db`feedbacks, db`nextFeedbackId
    ensures db.Valid()
    ensures user.None? ==> status == UNAUTHORIZED && unchanged(db)
    ensures user.Some? && ParseFeedback(body).None? ==> status == BAD_REQUEST && unchanged(db)
    ensures user.Some? && ParseFeedback(body).Some? ==>
      && status == CREATED
      && db.feedbacks == old(db.feedbacks) + [Feedback(old(db.nextFeedbackId), body["title"].s, body["description"].s, user.value, createdAt)]
      && db.nextFeedbackId == old(db.nextFeedbackId) + 1
  {
    if user.None? {
      return UNAUTHORIZED;
    }
    var data := ParseFeedback(body);
    if data.None? {
      return BAD_REQUEST;
    }
    var _ := db.CreateFeedback(data.value.title, data.value.description, user.value, createdAt);
    return CREATED;
  }

  /** DELETE /api/feedbacks/:id. Only the feedback row goes; its votes, comments and reactions stay. */
  method DeleteFeedback(db: DatabaseStorage, user: Option<int>, id: int) returns (status: int)
    requires db.Valid()
    modifies db`feedbacks
    ensures db.Valid()
    ensures user.None? ==> status == UNAUTHORIZED && unchanged(db)
    ensures user.Some? && old(db.GetFeedback(id)).None? ==> status == NOT_FOUND && unchanged(db)
    ensures user.Some? && old(db.GetFeedback(id)).Some? && old(db.GetFeedback(id)).value.userId != user.value ==>
      status == FORBIDDEN && unchanged(db)
    ensures user.Some? && old(db.GetFeedback(id)).Some? && old(db.GetFeedback(id)).value.userId == user.value ==>
      && status == NO_CONTENT
      && db.feedbacks == Filter(old(db.feedbacks), HasIdOtherThan(FeedbackId, id))
    ensures status == NO_CONTENT || unchanged(db)
  {
    if user.None? {
      return UNAUTHORIZED;
    }
    var feedback := db.GetFeedback(id);
    if feedback.None? {
      return NOT_FOUND;
    }
    if feedback.value.userId != user.value {
      return FORBIDDEN;
    }
    db.DeleteFeedback(id);
    return NO_CONTENT;
  }

  /**
   * POST /api/feedbacks/:id/vote. An existing vote of the user on the
   * feedback is updated in place (answered with the default status 200);
   * otherwise one row is inserted (201). The feedback's existence is not checked.
   */
  method CastVote(db: DatabaseStorage, user: Option<int>, id: int, body: Body) returns (status: int)
    requires db.Valid()
    modifies db`votes, db`nextVoteId
    ensures db.Valid()
    ensures user.None? ==> status == UNAUTHORIZED && unchanged(db)
    ensures user.Some? && VoteValue(body).None? ==> status == BAD_REQUEST && unchanged(db)
    ensures user.Some? && VoteValue(body).Some? ==>
      match old(db.GetVote(id, user.value))
      case Some(existing) =>
        && status == OK
        && db.votes == SetIsUpvote(old(db.votes), existing.id, VoteValue(body).value)
        && db.nextVoteId == old(db.nextVoteId)
      case None =>
        && status == CREATED
        && db.votes == old(db.votes) + [Vote(old(db.nextVoteId), id, user.value, VoteValue(body).value)]
        && db.nextVoteId == old(db.nextVoteId) + 1
    ensures OneVotePerUser(old(db.votes)) ==> OneVotePerUser(db.votes)
  {
    if user.None? {
      return UNAUTHORIZED;
    }
    var isUpvote := VoteValue(body);
    if isUpvote.None? {
      return BAD_REQUEST;
    }
    var existing := db.GetVote(id, user.value);
    if existing.Some? {
      if OneVotePerUser(db.votes) {
        SetIsUpvoteKeepsOneVotePerUser(db.votes, existing.value.id, isUpvote.value);
      }
      var _ := db.UpdateVote(existing.value.id, isUpvote.value);
      return OK;
    }
    ghost var before := db.votes;
    var v := db.CreateVote(id, user.value, isUpvote.value);
    if OneVotePerUser(before) {
      InsertVoteKeepsOneVotePerUser(before, v);
    }
    return CREATED;
  }

  /** POST /api/feedbacks/:id/comments. The stored `feedbackId` is the path's, whatever the body says. */
  method PostComment(db: DatabaseStorage, user: Option<int>, id: int, body: Body, createdAt: nat) returns (status: int)
    requires db.Valid()
    modifies db`comments, db`nextCommentId
    ensures db.Valid()
    ensures user.None? ==> status == UNAUTHORIZED && unchanged(db)
    ensures user.Some? && ParseComment(body["feedbackId" := JNumber(id)]).None? ==> status == BAD_REQUEST && unchanged(db)
    ensures user.Some? && ParseComment(body["feedbackId" := JNumber(id)]).Some? ==>
      && status == CREATED
      && db.comments == old(db.comments) + [Comment(old(db.nextCommentId), body["content"].s, id, user.value, createdAt)]
      && db.nextCommentId == old(db.nextCommentId) + 1
    ensures user.Some? ==> (status == CREATED <==> "content" in body && body["content"].JString? && ValidCommentContent(body["content"].s))
  {
    if user.None? {
      return UNAUTHORIZED;
    }
    var data := ParseComment(body["feedbackId" := JNumber(id)]);
    if data.None? {
      return BAD_REQUEST;
    }
    var _ := db.CreateComment(data.value.content, data.value.feedbackId, user.value, createdAt);
    return CREATED;
  }

  /** POST /api/feedbacks/:id/reactions. The stored `feedbackId` is the path's; an identical reaction is replaced. */
  method PostReaction(db: DatabaseStorage, user: Option<int>, id: int, body: Body, createdAt: nat) returns (status: int)
    requires db.Valid()
    modifies db`reactions, db`nextReactionId
    ensures db.Valid()
    ensures user.None? ==> status == UNAUTHORIZED && unchanged(db)
    ensures user.Some? && ParseReaction(body["feedbackId" := JNumber(id)]).None? ==> status == BAD_REQUEST && unchanged(db)
    ensures user.Some? && ParseReaction(body["feedbackId" := JNumber(id)]).Some? ==>
      && status == CREATED
      && db.reactions == WithReaction(old(db.reactions), Reaction(old(db.nextReactionId), id, user.value, body["emoji"].s, createdAt))
      && db.nextReactionId == old(db.nextReactionId) + 1
    ensures user.Some? ==> (status == CREATED <==> "emoji" in body && body["emoji"].JString? && ValidEmoji(body["emoji"].s))
    ensures OneReactionPerKey(old(db.reactions)) ==> OneReactionPerKey(db.reactions)
  {
    if user.None? {
      return UNAUTHORIZED;
    }
    var data := ParseReaction(body["feedbackId" := JNumber(id)]);
    if data.None? {
      return BAD_REQUEST;
    }
    ghost var before := db.reactions;
    var r := db.CreateReaction(id, user.value, data.value.emoji, createdAt);
    if OneReactionPerKey(before) {
      CreateReactionKeepsOneReactionPerKey(before, r);
    }
    return CREATED;
  }

  /** DELETE /api/feedbacks/:id/reactions/:emoji: answers 204 whether or not a row matched. */
  method DeleteReaction(db: DatabaseStorage, user: Option<int>, id: int, emoji: Text) returns (status: int)
    requires db.Valid()
    modifies db`reactions
    ensures db.Valid()
    ensures user.None? ==> status == UNAUTHORIZED && unchanged(db)
    ensures user.Some? ==> status == NO_CONTENT && db.reactions == WithoutReaction(old(db.reactions), id, user.value, emoji)
    ensures OneReactionPerKey(old(db.reactions)) ==> OneReactionPerKey(db.reactions)
  {
    if user.None? {
      return UNAUTHORIZED;
    }
    if OneReactionPerKey(db.reactions) {
      DeleteReactionKeepsOneReactionPerKey(db.reactions, id, user.value, emoji);
    }
    db.DeleteReaction(id, user.value, emoji);
    return NO_CONTENT;
  }
}

=== FILE: rows.dfy ===
/**
 * Tables held as sequences of rows: the `WHERE` filter, row counts, the
 * substring test behind `LIKE '%s%'`, grouping keys and `serial` ids.
 */
module Rows {
  import opened Wrappers

  /** The rows of `s` that satisfy `p`, in table order. */
  function Filter<T>(s: seq<T>, p: T -> bool): (r: seq<T>)
    ensures |r| <= |s|
    ensures forall i :: 0 <= i < |r| ==> r[i] in s && p(r[i])
    ensures forall i :: 0 <= i < |s| && p(s[i]) ==> s[i] in r
  {
    if s == [] then []
    else if p(s[0]) then [s[0]] + Filter(s[1..], p)
    else Filter(s[1..], p)
  }

  /** The number of rows of `s` that satisfy `p` (`count(*)` under a `WHERE`). */
  function Count<T>(s: seq<T>, p: T -> bool): nat {
    |Filter(s, p)|
  }

  /** Filtering distributes over appending tables. */
  lemma {:induction false} FilterAppend<T>(a: seq<T>, b: seq<T>, p: T -> bool)
    ensures Filter(a + b, p) == Filter(a, p) + Filter(b, p)
  {
    if a == [] {
      assert a + b == b;
    } else {
      assert (a + b)[0] == a[0];
      assert (a + b)[1..] == a[1..] + b;
      FilterAppend(a[1..], b, p);
    }
  }

  /** `results[0]` of a filter: undefined exactly when no row matches, else a matching row. */
  lemma FirstMatch<T>(s: seq<T>, p: T -> bool)
    ensures First(Filter(s, p)).None? <==> forall i :: 0 <= i < |s| ==> !p(s[i])
    ensures First(Filter(s, p)).Some? ==> First(Filter(s, p)).value in s && p(First(Filter(s, p)).value)
  {
  }

  /** `results[0]` of a lookup by id: undefined exactly when no row has the id, else a row with it. */
  lemma FirstWithId<T>(s: seq<T>, id: T -> int, k: int)
    ensures First(Filter(s, HasId(id, k))).None? <==> forall i :: 0 <= i < |s| ==> id(s[i]) != k
    ensures First(Filter(s, HasId(id, k))).Some? ==>
      First(Filter(s, HasId(id, k))).value in s && id(First(Filter(s, HasId(id, k))).value) == k
  {
    FirstMatch(s, HasId(id, k));
  }

  /** Appending one row adds one to exactly the counts whose condition it meets. */
  lemma CountAppend<T>(s: seq<T>, x: T, p: T -> bool)
    ensures Count(s + [x], p) == Count(s, p) + (if p(x) then 1 else 0)
  {
    FilterAppend(s, [x], p);
    assert [x][1..] == [];
  }

  /** A count is positive exactly when some row meets the condition. */
  lemma CountPositive<T>(s: seq<T>, p: T -> bool)
    ensures Count(s, p) > 0 <==> exists i :: 0 <= i < |s| && p(s[i])
  {
    if exists i :: 0 <= i < |s| && p(s[i]) {
      var i :| 0 <= i < |s| && p(s[i]);
      assert s[i] in Filter(s, p);
    }
    if Count(s, p) > 0 {
      var r := Filter(s, p);
      assert r[0] in s && p(r[0]);
    }
  }

  /** Counts of two disjoint conditions add up to at most the count of a condition covering both. */
  lemma {:induction false} CountDisjoint<T>(s: seq<T>, p: T -> bool, q: T -> bool, all: T -> bool)
    requires forall x :: x in s ==> !(p(x) && q(x))
    requires forall x :: x in s && (p(x) || q(x)) ==> all(x)
    ensures Count(s, p) + Count(s, q) <= Count(s, all)
  {
    if s != [] {
      CountDisjoint(s[1..], p, q, all);
    }
  }

  /** Filtering by `p` again changes nothing. */
  lemma {:induction false} FilterTwice<T>(s: seq<T>, p: T -> bool)
    ensures Filter(Filter(s, p), p) == Filter(s, p)
  {
    if s != [] {
      FilterTwice(s[1..], p);
      if p(s[0]) {
        assert ([s[0]] + Filter(s[1..], p))[1..] == Filter(s[1..], p);
      }
    }
  }

  /** Filtering by a condition that implies `q` sees through an earlier filter by `q`. */
  lemma {:induction false} FilterImplied<T>(s: seq<T>, p: T -> bool, q: T -> bool)
    requires forall x :: x in s && p(x) ==> q(x)
    ensures Filter(Filter(s, q), p) == Filter(s, p)
  {
    if s != [] {
      FilterImplied(s[1..], p, q);
      if q(s[0]) {
        assert ([s[0]] + Filter(s[1..], q))[1..] == Filter(s[1..], q);
      }
    }
  }

  /** A filter that no row passes is empty. */
  lemma {:induction false} FilterNone<T>(s: seq<T>, p: T -> bool)
    requires forall x :: x in s ==> !p(x)
    ensures Filter(s, p) == []
  {
    if s != [] {
      FilterNone(s[1..], p);
    }
  }

  /** A row is in the filtered table exactly when it is in the table and passes the condition. */
  lemma FilterMembership<T>(s: seq<T>, p: T -> bool)
    ensures forall x :: x in Filter(s, p) <==> x in s && p(x)
  {
    forall x | x in Filter(s, p) ensures x in s && p(x) {
      var j :| 0 <= j < |Filter(s, p)| && Filter(s, p)[j] == x;
    }
  }

  /** Filtering never repeats a row: the result is a sub-multiset of the table. */
  lemma {:induction false} FilterSubMultiset<T>(s: seq<T>, p: T -> bool)
    ensures multiset(Filter(s, p)) <= multiset(s)
  {
    if s != [] {
      FilterSubMultiset(s[1..], p);
      assert s == [s[0]] + s[1..];
      assert multiset(s) == multiset{s[0]} + multiset(s[1..]);
    }
  }

  /** The column of a concatenation is the concatenation of the columns. */
  lemma ColumnAppend<T, U>(s: seq<T>, t: seq<T>, f: T -> U)
    ensures Column(s + t, f) == Column(s, f) + Column(t, f)
  {
  }

  /** The column `f` of a table, row by row. */
  function Column<T, U>(s: seq<T>, f: T -> U): (r: seq<U>)
    ensures |r| == |s|
    ensures forall i :: 0 <= i < |s| ==> r[i] == f(s[i])
  {
    if s == [] then [] else [f(s[0])] + Column(s[1..], f)
  }

  /** True when `sub` occurs in `s` as a contiguous run (`s LIKE '%' || sub || '%'`). */
  predicate Contains<T(==)>(s: seq<T>, sub: seq<T>)
    decreases |s|
  {
    sub <= s || (s != [] && Contains(s[1..], sub))
  }

  /** `sub` occurs in `s` starting at position `i`. */
  predicate OccursAt<T(==)>(s: seq<T>, sub: seq<T>, i: int) {
    0 <= i <= |s| - |sub| && s[i..i + |sub|] == sub
  }

  /** An occurrence past the head of `s` is an occurrence in its tail, one position earlier, and back. */
  lemma OccursInTail<T>(s: seq<T>, sub: seq<T>, i: int)
    requires s != [] && 1 <= i
    ensures OccursAt(s, sub, i) <==> OccursAt(s[1..], sub, i - 1)
  {
    if 0 <= i - 1 <= |s[1..]| - |sub| {
      assert s[1..][i - 1..i - 1 + |sub|] == s[i..i + |sub|];
    }
  }

  /** An occurrence at the head is a prefix. */
  lemma OccursAtHead<T>(s: seq<T>, sub: seq<T>)
    ensures OccursAt(s, sub, 0) <==> sub <= s
  {
  }

  /** `Contains` is exactly "`sub` occurs at some position of `s`". */
  lemma {:induction false} ContainsAt<T>(s: seq<T>, sub: seq<T>)
    ensures Contains(s, sub) <==> exists i :: OccursAt(s, sub, i)
    decreases |s|
  {
    OccursAtHead(s, sub);
    if sub <= s {
    } else if s == [] {
    } else {
      ContainsAt(s[1..], sub);
      if exists i :: OccursAt(s, sub, i) {
        var i :| OccursAt(s, sub, i);
        OccursInTail(s, sub, i);
      }
      if exists j :: OccursAt(s[1..], sub, j) {
        var j :| OccursAt(s[1..], sub, j);
        OccursInTail(s, sub, j + 1);
      }
    }
  }

  predicate NoDuplicates<T(==)>(s: seq<T>) {
    forall i, j :: 0 <= i < j < |s| ==> s[i] != s[j]
  }

  /** The distinct values of `s`, each at its first appearance (a `GROUP BY` key list). */
  function Distinct<T(==)>(s: seq<T>): (r: seq<T>)
    ensures NoDuplicates(r)
    ensures forall i :: 0 <= i < |r| ==> r[i] in s
    ensures forall i :: 0 <= i < |s| ==> s[i] in r
  {
    if s == [] then []
    else
      var d := Distinct(s[..|s| - 1]);
      assert s == s[..|s| - 1] + [s[|s| - 1]];
      if s[|s| - 1] in d then d else d + [s[|s| - 1]]
  }

  /**
   * Rows whose `id` column is a `serial`: strictly increasing in table order
   * (rows are appended with the next value and never re-keyed), all at least 1
   * and below the sequence's next value.
   */
  ghost predicate Serial<T>(rows: seq<T>, id: T -> int, next: int) {
    && (forall i, j :: 0 <= i < j < |rows| ==> id(rows[i]) < id(rows[j]))
    && (forall i :: 0 <= i < |rows| ==> 1 <= id(rows[i]) < next)
  }

  /** The rows whose id is `k`. */
  function HasId<T>(id: T -> int, k: int): T -> bool {
    x => id(x) == k
  }

  /** The rows whose id is not `k`. */
  function HasIdOtherThan<T>(id: T -> int, k: int): T -> bool {
    x => id(x) != k
  }

  lemma SerialAppend<T>(rows: seq<T>, id: T -> int, next: int, x: T)
    requires Serial(rows, id, next) && id(x) == next && 1 <= next
    ensures Serial(rows + [x], id, next + 1)
  {
  }

  /** Dropping the first row of a serial table leaves a serial table. */
  lemma SerialTail<T>(rows: seq<T>, id: T -> int, next: int)
    requires Serial(rows, id, next) && rows != []
    ensures Serial(rows[1..], id, next)
    ensures IdsAbove(rows[1..], id, id(rows[0]))
  {
    forall i, j | 0 <= i < j < |rows[1..]| ensures id(rows[1..][i]) < id(rows[1..][j]) {
      assert rows[1..][i] == rows[i + 1] && rows[1..][j] == rows[j + 1];
    }
    forall k | 0 <= k < |rows| - 1 ensures id(rows[0]) < id(rows[1..][k]) {
      assert rows[1..][k] == rows[k + 1];
    }
  }

  /** Every row of `s` has an id above `lo`. */
  ghost predicate IdsAbove<T>(s: seq<T>, id: T -> int, lo: int) {
    forall i :: 0 <= i < |s| ==> lo < id(s[i])
  }

  lemma {:induction false} FilterIdsAbove<T>(s: seq<T>, id: T -> int, lo: int, p: T -> bool)
    requires IdsAbove(s, id, lo)
    ensures IdsAbove(Filter(s, p), id, lo)
  {
    if s != [] {
      assert IdsAbove(s[1..], id, lo) by {
        forall i | 0 <= i < |s[1..]| ensures lo < id(s[1..][i]) {
          assert s[1..][i] == s[i + 1];
        }
      }
      FilterIdsAbove(s[1..], id, lo, p);
    }
  }

  lemma SerialCons<T>(x: T, rest: seq<T>, id: T -> int, next: int)
    requires Serial(rest, id, next) && IdsAbove(rest, id, id(x)) && 1 <= id(x) < next
    ensures Serial([x] + rest, id, next)
  {
    var r := [x] + rest;
    forall i, j | 0 <= i < j < |r| ensures id(r[i]) < id(r[j]) {
      assert r[j] == rest[j - 1];
      if i > 0 { assert r[i] == rest[i - 1]; }
    }
    forall i | 0 <= i < |r| ensures 1 <= id(r[i]) < next {
      if i > 0 { assert r[i] == rest[i - 1]; }
    }
  }

  /** A filtered serial table is still serial. */
  lemma {:induction false} SerialFilter<T>(rows: seq<T>, id: T -> int, next: int, p: T -> bool)
    requires Serial(rows, id, next)
    ensures Serial(Filter(rows, p), id, next)
  {
    if rows != [] {
      SerialTail(rows, id, next);
      SerialFilter(rows[1..], id, next, p);
      if p(rows[0]) {
        FilterIdsAbove(rows[1..], id, id(rows[0]), p);
        SerialCons(rows[0], Filter(rows[1..], p), id, next);
      }
    }
  }

  /** In a serial table the row with a given row's id is that row, and it is the first match. */
  lemma {:induction false} SerialFind<T>(rows: seq<T>, id: T -> int, next: int, x: T)
    requires Serial(rows, id, next) && x in rows
    ensures First(Filter(rows, HasId(id, id(x)))) == Some(x)
  {
    SerialTail(rows, id, next);
    if rows[0] != x {
      assert x in rows[1..];
      var m :| 0 <= m < |rows[1..]| && rows[1..][m] == x;
      assert id(rows[0]) < id(x);
      SerialFind(rows[1..], id, next, x);
    }
  }
}

=== FILE: schema.dfy ===
/**
 * The shared row types, the aggregate view sent to the client, and the zod
 * input schemas that bound request bodies.
 */
module Schema {
  import opened Wrappers

  /**
   * One UTF-16 code unit. JavaScript strings are sequences of these, and zod's
   * `.min`/`.max` on a string bound their number (`String.prototype.length`).
   */
  newtype CodeUnit = x: int | 0 <= x < 0x1_0000

  type Text = seq<CodeUnit>

  /** A row of `users`; `username` is `unique` in the table. */
  datatype User = User(id: int, username: Text, password: Text)

  /** A row of `feedbacks`; `createdAt` is the abstract time of insertion. */
  datatype Feedback = Feedback(id: int, title: Text, description: Text, userId: int, createdAt: nat)

  /** A row of `votes`; `isUpvote` is 1 for an upvote and -1 for a downvote. */
  datatype Vote = Vote(id: int, feedbackId: int, userId: int, isUpvote: int)

  /** A row of `comments`. */
  datatype Comment = Comment(id: int, content: Text, feedbackId: int, userId: int, createdAt: nat)

  /** A row of `reactions`. */
  datatype Reaction = Reaction(id: int, feedbackId: int, userId: int, emoji: Text, createdAt: nat)

  const UPVOTE: int := 1
  const DOWNVOTE: int := -1

  /** One entry of the reaction aggregate: an emoji, how many rows carry it, and whether the asking user is among them. */
  datatype ReactionCount = ReactionCount(emoji: Text, count: nat, userReacted: bool)

  /** `FeedbackWithVotes`: a feedback row joined with its tallies, author name, comments and reactions. */
  datatype FeedbackWithVotes = FeedbackWithVotes(
    id: int,
    title: Text,
    description: Text,
    userId: int,
    createdAt: nat,
    upvotes: nat,
    downvotes: nat,
    userVote: Option<int>,
    author: Text,
    comments: seq<Comment>,
    reactions: seq<ReactionCount>)

  /** A JSON value of a request body, as far as the schemas distinguish them. */
  datatype Json = JNumber(n: int) | JString(s: Text) | JOther

  /** A parsed JSON request body: its fields by name; a missing key is `undefined`. */
  type Body = map<string, Json>

  /** `insertUserSchema`'s output: the fields a registration supplies. */
  datatype InsertUser = InsertUser(username: Text, password: Text)

  /** `insertFeedbackSchema`'s output. */
  datatype InsertFeedback = InsertFeedback(title: Text, description: Text)

  /** `insertCommentSchema`'s output. */
  datatype InsertComment = InsertComment(content: Text, feedbackId: int)

  /** `insertReactionSchema`'s output. */
  datatype InsertReaction = InsertReaction(emoji: Text, feedbackId: int)

  predicate ValidTitle(t: Text) { 5 <= |t| <= 100 }

  predicate ValidDescription(d: Text) { 20 <= |d| <= 1000 }

  predicate ValidCommentContent(c: Text) { 1 <= |c| <= 500 }

  /** One emoji: a single code unit, or a surrogate pair or a character plus variation selector. */
  predicate ValidEmoji(e: Text) { 1 <= |e| <= 2 }

  /** `z.string()` on a field: the field's value when it is a string. */
  function StringField(body: Body, key: string): Option<Text> {
    if key in body && body[key].JString? then Some(body[key].s) else None
  }

  /** `z.number()` on a field: the field's value when it is a number. */
  function NumberField(body: Body, key: string): Option<int> {
    if key in body && body[key].JNumber? then Some(body[key].n) else None
  }

  /** `insertFeedbackSchema.safeParse`: a string title of 5..100 units and a string description of 20..1000 units; other fields are dropped. */
  function ParseFeedback(body: Body): (r: Option<InsertFeedback>)
    ensures r.Some? <==>
      && "title" in body && body["title"].JString? && 5 <= |body["title"].s| <= 100
      && "description" in body && body["description"].JString? && 20 <= |body["description"].s| <= 1000
    ensures r.Some? ==> r.value.title == body["title"].s && r.value.description == body["description"].s
  {
    match (StringField(body, "title"), StringField(body, "description"))
    case (Some(t), Some(d)) =>
      if ValidTitle(t) && ValidDescription(d) then Some(InsertFeedback(t, d)) else None
    case _ => None
  }

  /** `insertCommentSchema.safeParse`: string content of 1..500 units and a numeric `feedbackId`. */
  function ParseComment(body: Body): (r: Option<InsertComment>)
    ensures r.Some? <==>
      && "content" in body && body["content"].JString? && 1 <= |body["content"].s| <= 500
      && "feedbackId" in body && body["feedbackId"].JNumber?
    ensures r.Some? ==> r.value.content == body["content"].s && r.value.feedbackId == body["feedbackId"].n
  {
    match (StringField(body, "content"), NumberField(body, "feedbackId"))
    case (Some(c), Some(f)) =>
      if ValidCommentContent(c) then Some(InsertComment(c, f)) else None
    case _ => None
  }

  /** `insertReactionSchema.safeParse`: a string emoji of 1..2 units and a numeric `feedbackId`. */
  function ParseReaction(body: Body): (r: Option<InsertReaction>)
    ensures r.Some? <==>
      && "emoji" in body && body["emoji"].JString? && 1 <= |body["emoji"].s| <= 2
      && "feedbackId" in body && body["feedbackId"].JNumber?
    ensures r.Some? ==> r.value.emoji == body["emoji"].s && r.value.feedbackId == body["feedbackId"].n
  {
    match (StringField(body, "emoji"), NumberField(body, "feedbackId"))
    case (Some(e), Some(f)) =>
      if ValidEmoji(e) then Some(InsertReaction(e, f)) else None
    case _ => None
  }
}

=== FILE: storage.dfy ===
/**
 * The data layer: five tables held as sequences of rows, each with its own
 * `serial` id sequence, the read-side queries over them, and the
 * `DatabaseStorage` object whose methods insert, update and delete rows.
 */
module Storage {
  import opened Wrappers
  import opened Rows
  import opened Schema

  // ---------------------------------------------------------------------
  // Id columns and `WHERE` conditions
  // ---------------------------------------------------------------------

  function UserId(u: User): int { u.id }
  function FeedbackId(f: Feedback): int { f.id }
  function VoteId(v: Vote): int { v.id }
  function CommentId(c: Comment): int { c.id }
  function ReactionId(r: Reaction): int { r.id }
  function EmojiOf(r: Reaction): Text { r.emoji }

  function UsernameIs(name: Text): User -> bool {
    (u: User) => u.username == name
  }

  function VoteOn(feedbackId: int): Vote -> bool {
    (v: Vote) => v.feedbackId == feedbackId
  }

  function VoteOnWith(feedbackId: int, isUpvote: int): Vote -> bool {
    (v: Vote) => v.feedbackId == feedbackId && v.isUpvote == isUpvote
  }

  function VoteBy(feedbackId: int, userId: int): Vote -> bool {
    (v: Vote) => v.feedbackId == feedbackId && v.userId == userId
  }

  function CommentOn(feedbackId: int): Comment -> bool {
    (c: Comment) => c.feedbackId == feedbackId
  }

  function ReactionOn(feedbackId: int): Reaction -> bool {
    (r: Reaction) => r.feedbackId == feedbackId
  }

  function ReactionOnWith(feedbackId: int, emoji: Text): Reaction -> bool {
    (r: Reaction) => r.feedbackId == feedbackId && r.emoji == emoji
  }

  /** The rows with key (feedbackId, userId, emoji). */
  function ReactionKeyIs(feedbackId: int, userId: int, emoji: Text): Reaction -> bool {
    (r: Reaction) => r.feedbackId == feedbackId && r.userId == userId && r.emoji == emoji
  }

  function ReactionKeyIsNot(feedbackId: int, userId: int, emoji: Text): Reaction -> bool {
    (r: Reaction) => !(r.feedbackId == feedbackId && r.userId == userId && r.emoji == emoji)
  }

  /** `title LIKE '%s%' OR description LIKE '%s%'`, for a pattern without wildcards. */
  function Mentions(search: Text): Feedback -> bool {
    (f: Feedback) => Contains(f.title, search) || Contains(f.description, search)
  }

  // ---------------------------------------------------------------------
  // Invariants the application keeps (no database constraint enforces them)
  // ---------------------------------------------------------------------

  /** At most one vote per (feedbackId, userId). */
  ghost predicate OneVotePerUser(votes: seq<Vote>) {
    forall f, u :: Count(votes, VoteBy(f, u)) <= 1
  }

  /** At most one reaction per (feedbackId, userId, emoji). */
  ghost predicate OneReactionPerKey(reactions: seq<Reaction>) {
    forall f, u, e :: Count(reactions, ReactionKeyIs(f, u, e)) <= 1
  }

  /** The `unique` constraint on `users.username`. */
  ghost predicate UniqueUsernames(users: seq<User>) {
    forall name :: Count(users, UsernameIs(name)) <= 1
  }

  // ---------------------------------------------------------------------
  // Votes
  // ---------------------------------------------------------------------

  /** `upvotes` and `downvotes` never add up to more than the feedback's vote rows. */
  lemma VoteTallyBound(votes: seq<Vote>, feedbackId: int)
    ensures Count(votes, VoteOnWith(feedbackId, UPVOTE)) + Count(votes, VoteOnWith(feedbackId, DOWNVOTE))
         <= Count(votes, VoteOn(feedbackId))
  {
    CountDisjoint(votes, VoteOnWith(feedbackId, UPVOTE), VoteOnWith(feedbackId, DOWNVOTE), VoteOn(feedbackId));
  }

  /** The row `UPDATE votes SET is_upvote = x WHERE id = k` leaves for `v`. */
  function Revote(v: Vote, id: int, isUpvote: int): Vote {
    if v.id == id then v.(isUpvote := isUpvote) else v
  }

  /** The votes table after `UPDATE votes SET is_upvote = isUpvote WHERE id = id`. */
  function SetIsUpvote(votes: seq<Vote>, id: int, isUpvote: int): (r: seq<Vote>)
    ensures |r| == |votes|
  {
    if votes == [] then [] else [Revote(votes[0], id, isUpvote)] + SetIsUpvote(votes[1..], id, isUpvote)
  }

  /** `updateVote` changes only the `isUpvote` field, and only of the rows with that id. */
  lemma {:induction false} SetIsUpvoteChangesOnlyIsUpvote(votes: seq<Vote>, id: int, isUpvote: int)
    ensures forall i :: 0 <= i < |votes| ==>
      var r := SetIsUpvote(votes, id, isUpvote)[i];
      && r.id == votes[i].id && r.feedbackId == votes[i].feedbackId && r.userId == votes[i].userId
      && (votes[i].id == id ==> r.isUpvote == isUpvote)
      && (votes[i].id != id ==> r == votes[i])
  {
    if votes != [] {
      SetIsUpvoteChangesOnlyIsUpvote(votes[1..], id, isUpvote);
      var r := SetIsUpvote(votes, id, isUpvote);
      forall i | 1 <= i < |votes| ensures r[i] == SetIsUpvote(votes[1..], id, isUpvote)[i - 1] {
      }
    }
  }

  /** Updating `isUpvote` keeps the number of votes per (feedbackId, userId). */
  lemma {:induction false} SetIsUpvoteKeepsVoters(votes: seq<Vote>, id: int, isUpvote: int, f: int, u: int)
    ensures Count(SetIsUpvote(votes, id, isUpvote), VoteBy(f, u)) == Count(votes, VoteBy(f, u))
  {
    if votes != [] {
      SetIsUpvoteKeepsVoters(votes[1..], id, isUpvote, f, u);
      var r := SetIsUpvote(votes, id, isUpvote);
      assert r[0] == Revote(votes[0], id, isUpvote);
      assert r[1..] == SetIsUpvote(votes[1..], id, isUpvote);
    }
  }

  /** Updating an existing vote keeps "one vote per (feedbackId, userId)". */
  lemma SetIsUpvoteKeepsOneVotePerUser(votes: seq<Vote>, id: int, isUpvote: int)
    requires OneVotePerUser(votes)
    ensures OneVotePerUser(SetIsUpvote(votes, id, isUpvote))
  {
    forall f, u ensures Count(SetIsUpvote(votes, id, isUpvote), VoteBy(f, u)) <= 1 {
      SetIsUpvoteKeepsVoters(votes, id, isUpvote, f, u);
    }
  }

  /** Inserting a vote for a (feedbackId, userId) that has none keeps "one vote per (feedbackId, userId)". */
  lemma InsertVoteKeepsOneVotePerUser(votes: seq<Vote>, v: Vote)
    requires OneVotePerUser(votes)
    requires Count(votes, VoteBy(v.feedbackId, v.userId)) == 0
    ensures OneVotePerUser(votes + [v])
  {
    forall f, u ensures Count(votes + [v], VoteBy(f, u)) <= 1 {
      CountAppend(votes, v, VoteBy(f, u));
    }
  }

  // ---------------------------------------------------------------------
  // Comments
  // ---------------------------------------------------------------------

  /** `ORDER BY created_at DESC`. */
  ghost predicate NewestFirst(cs: seq<Comment>) {
    forall i, j :: 0 <= i < j < |cs| ==> cs[i].createdAt >= cs[j].createdAt
  }

  /** A comment no older than the head of a newest-first list may go in front of it. */
  lemma NewestFirstCons(x: Comment, rest: seq<Comment>)
    requires NewestFirst(rest) && (rest != [] ==> rest[0].createdAt <= x.createdAt)
    ensures NewestFirst([x] + rest)
  {
    var r := [x] + rest;
    forall i, j | 0 <= i < j < |r| ensures r[i].createdAt >= r[j].createdAt {
      if i == 0 {
        assert r[j] == rest[j - 1];
        if j > 1 {
          assert rest[0].createdAt >= rest[j - 1].createdAt;
        }
      } else {
        assert r[i] == rest[i - 1] && r[j] == rest[j - 1];
      }
    }
  }

  function InsertByDate(c: Comment, cs: seq<Comment>): (r: seq<Comment>)
    requires NewestFirst(cs)
    ensures NewestFirst(r)
    ensures multiset(r) == multiset(cs) + multiset{c}
    ensures |r| == |cs| + 1
    ensures r[0] == c || (cs != [] && r[0] == cs[0])
  {
    if cs == [] || cs[0].createdAt <= c.createdAt then
      NewestFirstCons(c, cs);
      [c] + cs
    else
      var rest := InsertByDate(c, cs[1..]);
      assert cs == [cs[0]] + cs[1..];
      NewestFirstCons(cs[0], rest);
      assert multiset([cs[0]] + rest) == multiset{cs[0]} + multiset(rest);
      assert multiset(cs) == multiset{cs[0]} + multiset(cs[1..]);
      [cs[0]] + rest
  }

  /** The rows of `cs` newest first; rows with equal `createdAt` keep no particular order. */
  function SortNewestFirst(cs: seq<Comment>): (r: seq<Comment>)
    ensures NewestFirst(r)
    ensures multiset(r) == multiset(cs)
  {
    if cs == [] then []
    else
      assert cs == [cs[0]] + cs[1..];
      InsertByDate(cs[0], SortNewestFirst(cs[1..]))
  }

  // ---------------------------------------------------------------------
  // Reactions
  // ---------------------------------------------------------------------

  /** The table after `createReaction(row)`: every row with row's key deleted, then `row` inserted. */
  function WithReaction(reactions: seq<Reaction>, row: Reaction): seq<Reaction> {
    Filter(reactions, ReactionKeyIsNot(row.feedbackId, row.userId, row.emoji)) + [row]
  }

  /** The table after `deleteReaction(f, u, e)`. */
  function WithoutReaction(reactions: seq<Reaction>, feedbackId: int, userId: int, emoji: Text): seq<Reaction> {
    Filter(reactions, ReactionKeyIsNot(feedbackId, userId, emoji))
  }

  /** The emojis of a feedback's reaction rows, each once, in order of first appearance (the `GROUP BY emoji` keys). */
  function ReactionEmojis(reactions: seq<Reaction>, feedbackId: int): seq<Text> {
    Distinct(Column(Filter(reactions, ReactionOn(feedbackId)), EmojiOf))
  }

  /**
   * The reaction aggregate of one feedback: per emoji, `count(*)` and
   * `bool_or(user_id = userId)`.
   */
  function ReactionCounts(reactions: seq<Reaction>, feedbackId: int, userId: int): (r: seq<ReactionCount>)
    ensures |r| == |ReactionEmojis(reactions, feedbackId)|
  {
    var es := ReactionEmojis(reactions, feedbackId);
    seq(|es|, i requires 0 <= i < |es| =>
      ReactionCount(es[i], Count(reactions, ReactionOnWith(feedbackId, es[i])),
                    Count(reactions, ReactionKeyIs(feedbackId, userId, es[i])) > 0))
  }

  /** Every grouping key is the emoji of at least one of the feedback's rows. */
  lemma EmojiHasRows(reactions: seq<Reaction>, feedbackId: int, e: Text)
    requires e in ReactionEmojis(reactions, feedbackId)
    ensures Count(reactions, ReactionOnWith(feedbackId, e)) >= 1
  {
    var on := Filter(reactions, ReactionOn(feedbackId));
    var col := Column(on, EmojiOf);
    var j :| 0 <= j < |col| && col[j] == e;
    var row := on[j];
    assert ReactionOn(feedbackId)(row);
    assert ReactionOnWith(feedbackId, e)(row);
    var k :| 0 <= k < |reactions| && reactions[k] == row;
    CountPositive(reactions, ReactionOnWith(feedbackId, e));
  }

  /** Every emoji of the feedback's rows is a grouping key. */
  lemma RowHasEmoji(reactions: seq<Reaction>, feedbackId: int, k: int)
    requires 0 <= k < |reactions| && reactions[k].feedbackId == feedbackId
    ensures reactions[k].emoji in ReactionEmojis(reactions, feedbackId)
  {
    var on := Filter(reactions, ReactionOn(feedbackId));
    assert ReactionOn(feedbackId)(reactions[k]);
    assert reactions[k] in on;
    var j :| 0 <= j < |on| && on[j] == reactions[k];
    assert Column(on, EmojiOf)[j] == reactions[k].emoji;
  }

  /** One entry of the aggregate: its emoji is the i-th key, its count that emoji's rows, its flag the user's. */
  lemma ReactionCountAt(reactions: seq<Reaction>, feedbackId: int, userId: int, i: int)
    requires 0 <= i < |ReactionCounts(reactions, feedbackId, userId)|
    ensures var r := ReactionCounts(reactions, feedbackId, userId)[i];
      && r.emoji == ReactionEmojis(reactions, feedbackId)[i]
      && 1 <= r.count == Count(reactions, ReactionOnWith(feedbackId, r.emoji))
      && (r.userReacted <==> exists k :: 0 <= k < |reactions| && ReactionKeyIs(feedbackId, userId, r.emoji)(reactions[k]))
  {
    var es := ReactionEmojis(reactions, feedbackId);
    EmojiHasRows(reactions, feedbackId, es[i]);
    CountPositive(reactions, ReactionKeyIs(feedbackId, userId, es[i]));
  }

  /** The aggregate has one entry per emoji. */
  lemma {:induction false} ReactionCountsDistinct(reactions: seq<Reaction>, feedbackId: int, userId: int)
    ensures var r := ReactionCounts(reactions, feedbackId, userId);
      forall i, j :: 0 <= i < j < |r| ==> r[i].emoji != r[j].emoji
  {
    var es := ReactionEmojis(reactions, feedbackId);
    var r := ReactionCounts(reactions, feedbackId, userId);
    forall i | 0 <= i < |r| ensures r[i].emoji == es[i] {
      ReactionCountAt(reactions, feedbackId, userId, i);
    }
  }

  /** Every entry counts its emoji's rows (at least one) and flags whether the user has one of them. */
  lemma {:induction false} ReactionCountsEntries(reactions: seq<Reaction>, feedbackId: int, userId: int)
    ensures var r := ReactionCounts(reactions, feedbackId, userId);
      && (forall i :: 0 <= i < |r| ==> 1 <= r[i].count == Count(reactions, ReactionOnWith(feedbackId, r[i].emoji)))
      && (forall i :: 0 <= i < |r| ==>
            (r[i].userReacted <==> exists k :: 0 <= k < |reactions| && ReactionKeyIs(feedbackId, userId, r[i].emoji)(reactions[k])))
  {
    var r := ReactionCounts(reactions, feedbackId, userId);
    forall i | 0 <= i < |r|
      ensures 1 <= r[i].count == Count(reactions, ReactionOnWith(feedbackId, r[i].emoji))
      ensures r[i].userReacted <==> exists k :: 0 <= k < |reactions| && ReactionKeyIs(feedbackId, userId, r[i].emoji)(reactions[k])
    {
      ReactionCountAt(reactions, feedbackId, userId, i);
    }
  }

  /** Every emoji that one of the feedback's rows carries has an entry. */
  lemma {:induction false} ReactionCountsCover(reactions: seq<Reaction>, feedbackId: int, userId: int)
    ensures var r := ReactionCounts(reactions, feedbackId, userId);
      forall k :: 0 <= k < |reactions| && reactions[k].feedbackId == feedbackId ==>
        exists i :: 0 <= i < |r| && r[i].emoji == reactions[k].emoji
  {
    var es := ReactionEmojis(reactions, feedbackId);
    var r := ReactionCounts(reactions, feedbackId, userId);
    forall k | 0 <= k < |reactions| && reactions[k].feedbackId == feedbackId
      ensures exists i :: 0 <= i < |r| && r[i].emoji == reactions[k].emoji
    {
      RowHasEmoji(reactions, feedbackId, k);
      var i :| 0 <= i < |es| && es[i] == reactions[k].emoji;
      ReactionCountAt(reactions, feedbackId, userId, i);
    }
  }

  /** `createReaction` leaves exactly one row with the new row's key, and every other row as it was. */
  lemma CreateReactionOneRow(reactions: seq<Reaction>, row: Reaction)
    ensures Filter(WithReaction(reactions, row), ReactionKeyIs(row.feedbackId, row.userId, row.emoji)) == [row]
    ensures Filter(WithReaction(reactions, row), ReactionKeyIsNot(row.feedbackId, row.userId, row.emoji))
         == Filter(reactions, ReactionKeyIsNot(row.feedbackId, row.userId, row.emoji))
  {
    var same := ReactionKeyIs(row.feedbackId, row.userId, row.emoji);
    var isNot := ReactionKeyIsNot(row.feedbackId, row.userId, row.emoji);
    var kept := Filter(reactions, isNot);
    FilterAppend(kept, [row], same);
    FilterNone(kept, same);
    FilterAppend(kept, [row], isNot);
    FilterTwice(reactions, isNot);
  }

  /** For any other key, `createReaction` leaves that key's rows as they were. */
  lemma CreateReactionOtherKeys(reactions: seq<Reaction>, row: Reaction, f: int, u: int, e: Text)
    requires (f, u, e) != (row.feedbackId, row.userId, row.emoji)
    ensures Filter(WithReaction(reactions, row), ReactionKeyIs(f, u, e)) == Filter(reactions, ReactionKeyIs(f, u, e))
  {
    var isNot := ReactionKeyIsNot(row.feedbackId, row.userId, row.emoji);
    FilterAppend(Filter(reactions, isNot), [row], ReactionKeyIs(f, u, e));
    FilterImplied(reactions, ReactionKeyIs(f, u, e), isNot);
  }

  /** `createReaction` establishes "one reaction per (feedbackId, userId, emoji)" and keeps it. */
  lemma CreateReactionKeepsOneReactionPerKey(reactions: seq<Reaction>, row: Reaction)
    requires OneReactionPerKey(reactions)
    ensures OneReactionPerKey(WithReaction(reactions, row))
  {
    forall f, u, e ensures Count(WithReaction(reactions, row), ReactionKeyIs(f, u, e)) <= 1 {
      if (f, u, e) == (row.feedbackId, row.userId, row.emoji) {
        CreateReactionOneRow(reactions, row);
      } else {
        CreateReactionOtherKeys(reactions, row, f, u, e);
      }
    }
  }

  /** `deleteReaction` removes every row with the key and no other row. */
  lemma DeleteReactionRemovesKey(reactions: seq<Reaction>, f: int, u: int, e: Text)
    ensures Count(WithoutReaction(reactions, f, u, e), ReactionKeyIs(f, u, e)) == 0
    ensures forall i :: 0 <= i < |reactions| ==>
      (reactions[i] in WithoutReaction(reactions, f, u, e) <==> !ReactionKeyIs(f, u, e)(reactions[i]))
    ensures forall x :: x in WithoutReaction(reactions, f, u, e) ==> x in reactions
  {
    var r := WithoutReaction(reactions, f, u, e);
    FilterNone(r, ReactionKeyIs(f, u, e));
  }

  /** `deleteReaction` keeps "one reaction per (feedbackId, userId, emoji)". */
  lemma DeleteReactionKeepsOneReactionPerKey(reactions: seq<Reaction>, f: int, u: int, e: Text)
    requires OneReactionPerKey(reactions)
    ensures OneReactionPerKey(WithoutReaction(reactions, f, u, e))
  {
    forall f', u', e' ensures Count(WithoutReaction(reactions, f, u, e), ReactionKeyIs(f', u', e')) <= 1 {
      FilterKeepsCount(reactions, ReactionKeyIsNot(f, u, e), ReactionKeyIs(f', u', e'));
    }
  }

  /** Filtering first never adds rows meeting a later condition. */
  lemma {:induction false} FilterKeepsCount(s: seq<Reaction>, q: Reaction -> bool, p: Reaction -> bool)
    ensures Count(Filter(s, q), p) <= Count(s, p)
  {
    if s != [] {
      FilterKeepsCount(s[1..], q, p);
      if q(s[0]) {
        assert ([s[0]] + Filter(s[1..], q))[1..] == Filter(s[1..], q);
      }
    }
  }

  /** The grouping keys depend only on the rows' keys: a last row with the same key gives the same keys. */
  lemma ReactionEmojisSameKey(s: seq<Reaction>, a: Reaction, b: Reaction, f: int)
    requires a.feedbackId == b.feedbackId && a.emoji == b.emoji
    ensures ReactionEmojis(s + [a], f) == ReactionEmojis(s + [b], f)
  {
    var on := ReactionOn(f);
    FilterAppend(s, [a], on);
    FilterAppend(s, [b], on);
    ColumnAppend(Filter(s, on), Filter([a], on), EmojiOf);
    ColumnAppend(Filter(s, on), Filter([b], on), EmojiOf);
    assert Column(Filter([a], on), EmojiOf) == Column(Filter([b], on), EmojiOf);
  }

  /** The aggregate depends only on the rows' keys: two rows with one key give the same counts. */
  lemma ReactionCountsSameKey(s: seq<Reaction>, a: Reaction, b: Reaction, f: int, u: int)
    requires a.feedbackId == b.feedbackId && a.userId == b.userId && a.emoji == b.emoji
    ensures ReactionCounts(s + [a], f, u) == ReactionCounts(s + [b], f, u)
  {
    ReactionEmojisSameKey(s, a, b, f);
    var es := ReactionEmojis(s + [a], f);
    var ra := ReactionCounts(s + [a], f, u);
    var rb := ReactionCounts(s + [b], f, u);
    forall i | 0 <= i < |es| ensures ra[i] == rb[i] {
      CountAppend(s, a, ReactionOnWith(f, es[i]));
      CountAppend(s, b, ReactionOnWith(f, es[i]));
      CountAppend(s, a, ReactionKeyIs(f, u, es[i]));
      CountAppend(s, b, ReactionKeyIs(f, u, es[i]));
    }
  }

  /** Reacting twice with the same (feedbackId, userId, emoji) gives the same aggregate as reacting once. */
  lemma CreateReactionTwice(reactions: seq<Reaction>, a: Reaction, b: Reaction, f: int, u: int)
    requires a.feedbackId == b.feedbackId && a.userId == b.userId && a.emoji == b.emoji
    ensures ReactionCounts(WithReaction(WithReaction(reactions, a), b), f, u)
         == ReactionCounts(WithReaction(reactions, a), f, u)
  {
    var isNot := ReactionKeyIsNot(a.feedbackId, a.userId, a.emoji);
    var kept := Filter(reactions, isNot);
    FilterAppend(kept, [a], isNot);
    FilterTwice(reactions, isNot);
    assert Filter([a], isNot) == [];
    assert WithReaction(WithReaction(reactions, a), b) == kept + [b];
    ReactionCountsSameKey(kept, b, a, f, u);
  }

  // ---------------------------------------------------------------------
  // Search
  // ---------------------------------------------------------------------

  /** The rows `getFeedbacks(search)` selects: all of them unless `search` is a non-empty string. */
  function SearchFeedbacks(feedbacks: seq<Feedback>, search: Option<Text>): seq<Feedback> {
    match search
    case Some(s) => if s != [] then Filter(feedbacks, Mentions(s)) else feedbacks
    case None => feedbacks
  }

  /**
   * An empty or missing search returns every row; otherwise exactly the rows
   * whose title or description contains the search text at some position.
   */
  lemma SearchFeedbacksSelects(feedbacks: seq<Feedback>, search: Option<Text>)
    ensures search.None? || search == Some([]) ==> SearchFeedbacks(feedbacks, search) == feedbacks
    ensures search.Some? && search.value != [] ==> forall i :: 0 <= i < |feedbacks| ==>
      (feedbacks[i] in SearchFeedbacks(feedbacks, search) <==>
        (exists k :: OccursAt(feedbacks[i].title, search.value, k)) ||
        (exists k :: OccursAt(feedbacks[i].description, search.value, k)))
    ensures forall x :: x in SearchFeedbacks(feedbacks, search) ==> x in feedbacks
  {
    if search.Some? && search.value != [] {
      forall i | 0 <= i < |feedbacks|
        ensures feedbacks[i] in SearchFeedbacks(feedbacks, search) <==>
          (exists k :: OccursAt(feedbacks[i].title, search.value, k)) ||
          (exists k :: OccursAt(feedbacks[i].description, search.value, k))
      {
        ContainsAt(feedbacks[i].title, search.value);
        ContainsAt(feedbacks[i].description, search.value);
      }
    }
  }

  /** What `getFeedback` answers for a user it cannot find, or whose username is empty. */
  const UNKNOWN: Text := [0x55, 0x6E, 0x6B, 0x6E, 0x6F, 0x77, 0x6E]  // "Unknown"

  // ---------------------------------------------------------------------
  // The storage object
  // ---------------------------------------------------------------------

  class DatabaseStorage {
    var users: seq<User>
    var feedbacks: seq<Feedback>
    var votes: seq<Vote>
    var comments: seq<Comment>
    var reactions: seq<Reaction>

    /** The next value of each table's `serial` id sequence. */
    var nextUserId: int
    var nextFeedbackId: int
    var nextVoteId: int
    var nextCommentId: int
    var nextReactionId: int

    /** What the database guarantees: serial primary keys and unique usernames. */
    ghost predicate Valid()
      reads this
    {
      && Serial(users, UserId, nextUserId) && 1 <= nextUserId
      && Serial(feedbacks, FeedbackId, nextFeedbackId) && 1 <= nextFeedbackId
      && Serial(votes, VoteId, nextVoteId) && 1 <= nextVoteId
      && Serial(comments, CommentId, nextCommentId) && 1 <= nextCommentId
      && Serial(reactions, ReactionId, nextReactionId) && 1 <= nextReactionId
      && UniqueUsernames(users)
    }

    /** Empty tables; every serial sequence starts at 1. */
    constructor ()
      ensures Valid()
      ensures users == [] && feedbacks == [] && votes == [] && comments == [] && reactions == []
      ensures nextUserId == nextFeedbackId == nextVoteId == nextCommentId == nextReactionId == 1
    {
      users, feedbacks, votes, comments, reactions := [], [], [], [], [];
      nextUserId, nextFeedbackId, nextVoteId, nextCommentId, nextReactionId := 1, 1, 1, 1, 1;
    }

    // --- users ---

    function GetUser(id: int): (r: Option<User>)
      reads this
      ensures r.None? <==> forall i :: 0 <= i < |users| ==> users[i].id != id
      ensures r.Some? ==> r.value in users && r.value.id == id
    {
      FirstWithId(users, UserId, id);
      First(Filter(users, HasId(UserId, id)))
    }

    function GetUserByUsername(username: Text): (r: Option<User>)
      reads this
      ensures r.None? <==> forall i :: 0 <= i < |users| ==> users[i].username != username
      ensures r.Some? ==> r.value in users && r.value.username == username
    {
      FirstMatch(users, UsernameIs(username));
      First(Filter(users, UsernameIs(username)))
    }

    /**
     * Insert a user. A taken username violates the `unique` constraint: the
     * insert fails and the table is unchanged, though the id sequence has
     * still advanced (`nextval` is not rolled back).
     */
    method CreateUser(insertUser: InsertUser) returns (r: Option<User>)
      requires Valid()
      modifies this`users, this`nextUserId
      ensures Valid()
      ensures nextUserId == old(nextUserId) + 1
      ensures old(GetUserByUsername(insertUser.username)).Some? ==> r.None? && users == old(users)
      ensures old(GetUserByUsername(insertUser.username)).None? ==>
        && r == Some(User(old(nextUserId), insertUser.username, insertUser.password))
        && users == old(users) + [r.value]
    {
      var id := nextUserId;
      nextUserId := nextUserId + 1;
      if GetUserByUsername(insertUser.username).Some? {
        return None;
      }
      var user := User(id, insertUser.username, insertUser.password);
      forall name ensures Count(users + [user], UsernameIs(name)) <= 1 {
        CountAppend(users, user, UsernameIs(name));
        if name == user.username {
          assert Filter(users, UsernameIs(name)) == [];
        }
      }
      SerialAppend(users, UserId, id, user);
      users := users + [user];
      r := Some(user);
    }

    // --- feedbacks ---

    /** `username || 'Unknown'` of the feedback's author. */
    function Author(userId: int): (a: Text)
      reads this
      ensures a != []
      ensures GetUser(userId).Some? && GetUser(userId).value.username != [] ==> a == GetUser(userId).value.username
      ensures a != UNKNOWN ==> GetUser(userId).Some? && a == GetUser(userId).value.username
    {
      match GetUser(userId)
      case Some(u) => if u.username != [] then u.username else UNKNOWN
      case None => UNKNOWN
    }

    /** The aggregate view of one feedback row, as `getFeedback` builds it. */
    function View(f: Feedback): (v: FeedbackWithVotes)
      reads this
    {
      FeedbackWithVotes(
        f.id, f.title, f.description, f.userId, f.createdAt,
        Count(votes, VoteOnWith(f.id, UPVOTE)),
        Count(votes, VoteOnWith(f.id, DOWNVOTE)),
        None,
        Author(f.userId),
        GetComments(f.id),
        GetReactions(f.id, None))
    }

    function GetFeedback(id: int): (r: Option<FeedbackWithVotes>)
      reads this
      ensures r.None? <==> forall i :: 0 <= i < |feedbacks| ==> feedbacks[i].id != id
      ensures r.Some? ==>
        && r.value.id == id
        && r.value.upvotes == Count(votes, VoteOnWith(id, UPVOTE))
        && r.value.downvotes == Count(votes, VoteOnWith(id, DOWNVOTE))
        && r.value.upvotes + r.value.downvotes <= Count(votes, VoteOn(id))
        && r.value.userVote == None
        && r.value.reactions == ReactionCounts(reactions, id, 0)
      ensures r.Some? ==> exists i :: (0 <= i < |feedbacks| && feedbacks[i].id == id &&
        r.value.title == feedbacks[i].title && r.value.description == feedbacks[i].description &&
        r.value.userId == feedbacks[i].userId && r.value.createdAt == feedbacks[i].createdAt)
      ensures r.Some? ==> r.value.author == Author(r.value.userId) && r.value.comments == GetComments(id)
    {
      FirstWithId(feedbacks, FeedbackId, id);
      match First(Filter(feedbacks, HasId(FeedbackId, id)))
      case None => None
      case Some(f) =>
        VoteTallyBound(votes, id);
        Some(View(f))
    }

    function GetFeedbacks(search: Option<Text>): (r: seq<FeedbackWithVotes>)
      reads this
      ensures search.None? || search == Some([]) ==> |r| == |feedbacks|
      ensures |r| == |SearchFeedbacks(feedbacks, search)|
      ensures forall i :: 0 <= i < |r| ==> r[i].id == SearchFeedbacks(feedbacks, search)[i].id
      ensures forall i :: 0 <= i < |r| ==> r[i].reactions == ReactionCounts(reactions, r[i].id, 0)
    {
      var rows := SearchFeedbacks(feedbacks, search);
      seq(|rows|, i requires 0 <= i < |rows| reads this => View(rows[i]))
    }

    method CreateFeedback(title: Text, description: Text, userId: int, createdAt: nat) returns (f: Feedback)
      requires Valid()
      modifies this`feedbacks, this`nextFeedbackId
      ensures Valid()
      ensures f == Feedback(old(nextFeedbackId), title, description, userId, createdAt)
      ensures feedbacks == old(feedbacks) + [f] && nextFeedbackId == old(nextFeedbackId) + 1
    {
      f := Feedback(nextFeedbackId, title, description, userId, createdAt);
      SerialAppend(feedbacks, FeedbackId, nextFeedbackId, f);
      feedbacks := feedbacks + [f];
      nextFeedbackId := nextFeedbackId + 1;
    }

    /** Deletes the feedback row only; its votes, comments and reactions stay. */
    method DeleteFeedback(id: int)
      requires Valid()
      modifies this`feedbacks
      ensures Valid()
      ensures feedbacks == Filter(old(feedbacks), HasIdOtherThan(FeedbackId, id))
    {
      SerialFilter(feedbacks, FeedbackId, nextFeedbackId, HasIdOtherThan(FeedbackId, id));
      feedbacks := Filter(feedbacks, HasIdOtherThan(FeedbackId, id));
    }

    // --- votes ---

    method CreateVote(feedbackId: int, userId: int, isUpvote: int) returns (v: Vote)
      requires Valid()
      modifies this`votes, this`nextVoteId
      ensures Valid()
      ensures v == Vote(old(nextVoteId), feedbackId, userId, isUpvote)
      ensures votes == old(votes) + [v] && nextVoteId == old(nextVoteId) + 1
    {
      v := Vote(nextVoteId, feedbackId, userId, isUpvote);
      SerialAppend(votes, VoteId, nextVoteId, v);
      votes := votes + [v];
      nextVoteId := nextVoteId + 1;
    }

    function GetVote(feedbackId: int, userId: int): (r: Option<Vote>)
      reads this
      ensures r.None? <==> Count(votes, VoteBy(feedbackId, userId)) == 0
      ensures r.Some? ==> r.value in votes && r.value.feedbackId == feedbackId && r.value.userId == userId
    {
      CountPositive(votes, VoteBy(feedbackId, userId));
      FirstMatch(votes, VoteBy(feedbackId, userId));
      First(Filter(votes, VoteBy(feedbackId, userId)))
    }

    /** Sets `isUpvote` of the vote with that id; answers the updated row, if there was one. */
    method UpdateVote(id: int, isUpvote: int) returns (r: Option<Vote>)
      requires Valid()
      modifies this`votes
      ensures Valid()
      ensures votes == SetIsUpvote(old(votes), id, isUpvote)
      ensures r.Some? ==> r.value in votes && r.value.id == id && r.value.isUpvote == isUpvote
      ensures r.None? <==> forall i :: 0 <= i < |votes| ==> votes[i].id != id
    {
      SetIsUpvoteChangesOnlyIsUpvote(votes, id, isUpvote);
      var updated := SetIsUpvote(votes, id, isUpvote);
      assert Serial(updated, VoteId, nextVoteId) by {
        forall i | 0 <= i < |updated| ensures VoteId(updated[i]) == VoteId(votes[i]) { }
      }
      votes := updated;
      r := First(Filter(votes, HasId(VoteId, id)));
    }

    // --- comments ---

    method CreateComment(content: Text, feedbackId: int, userId: int, createdAt: nat) returns (c: Comment)
      requires Valid()
      modifies this`comments, this`nextCommentId
      ensures Valid()
      ensures c == Comment(old(nextCommentId), content, feedbackId, userId, createdAt)
      ensures comments == old(comments) + [c] && nextCommentId == old(nextCommentId) + 1
    {
      c := Comment(nextCommentId, content, feedbackId, userId, createdAt);
      SerialAppend(comments, CommentId, nextCommentId, c);
      comments := comments + [c];
      nextCommentId := nextCommentId + 1;
    }

    /** The feedback's comments, newest first. */
    function GetComments(feedbackId: int): (r: seq<Comment>)
      reads this
      ensures NewestFirst(r)
      ensures forall c :: c in r <==> c in comments && c.feedbackId == feedbackId
      ensures |r| == Count(comments, CommentOn(feedbackId))
      ensures multiset(r) == multiset(Filter(comments, CommentOn(feedbackId)))
    {
      var on := Filter(comments, CommentOn(feedbackId));
      var r := SortNewestFirst(on);
      assert forall c :: c in r <==> c in multiset(on);
      assert |r| == |multiset(r)| == |multiset(on)| == |on|;
      forall c | c in comments && c.feedbackId == feedbackId ensures c in on {
        var i :| 0 <= i < |comments| && comments[i] == c;
      }
      r
    }

    // --- reactions ---

    /** Deletes any identical reaction, then inserts the new one. */
    method CreateReaction(feedbackId: int, userId: int, emoji: Text, createdAt: nat) returns (r: Reaction)
      requires Valid()
      modifies this`reactions, this`nextReactionId
      ensures Valid()
      ensures r == Reaction(old(nextReactionId), feedbackId, userId, emoji, createdAt)
      ensures reactions == WithReaction(old(reactions), r) && nextReactionId == old(nextReactionId) + 1
    {
      r := Reaction(nextReactionId, feedbackId, userId, emoji, createdAt);
      SerialFilter(reactions, ReactionId, nextReactionId, ReactionKeyIsNot(feedbackId, userId, emoji));
      var kept := Filter(reactions, ReactionKeyIsNot(feedbackId, userId, emoji));
      SerialAppend(kept, ReactionId, nextReactionId, r);
      reactions := kept + [r];
      nextReactionId := nextReactionId + 1;
    }

    /** The reaction aggregate, with `userReacted` asked about `userId || 0`. */
    function GetReactions(feedbackId: int, userId: Option<int>): (r: seq<ReactionCount>)
      reads this
      ensures forall i :: 0 <= i < |r| ==>
        (r[i].userReacted <==>
          exists k :: 0 <= k < |reactions| &&
            reactions[k].feedbackId == feedbackId && reactions[k].emoji == r[i].emoji &&
            reactions[k].userId == (if userId.Some? then userId.value else 0))
      ensures forall i :: 0 <= i < |r| ==> 1 <= r[i].count == Count(reactions, ReactionOnWith(feedbackId, r[i].emoji))
      ensures forall i, j :: 0 <= i < j < |r| ==> r[i].emoji != r[j].emoji
      ensures forall k :: 0 <= k < |reactions| && reactions[k].feedbackId == feedbackId ==>
        exists i :: 0 <= i < |r| && r[i].emoji == reactions[k].emoji
    {
      ReactionCountsEntries(reactions, feedbackId, userId.GetOr(0));
      ReactionCountsDistinct(reactions, feedbackId, userId.GetOr(0));
      ReactionCountsCover(reactions, feedbackId, userId.GetOr(0));
      ReactionCounts(reactions, feedbackId, userId.GetOr(0))
    }

    method DeleteReaction(feedbackId: int, userId: int, emoji: Text)
      requires Valid()
      modifies this`reactions
      ensures Valid()
      ensures reactions == WithoutReaction(old(reactions), feedbackId, userId, emoji)
    {
      SerialFilter(reactions, ReactionId, nextReactionId, ReactionKeyIsNot(feedbackId, userId, emoji));
      reactions := Filter(reactions, ReactionKeyIsNot(feedbackId, userId, emoji));
    }
  }

  /**
   * `getFeedbacks` answers, for each selected row, what `getFeedback` answers
   * for that row's id (the ids are a primary key).
   */
  lemma GetFeedbacksAgreesWithGetFeedback(db: DatabaseStorage, search: Option<Text>)
    requires db.Valid()
    ensures |db.GetFeedbacks(search)| == |SearchFeedbacks(db.feedbacks, search)|
    ensures forall i :: 0 <= i < |db.GetFeedbacks(search)| ==>
      db.GetFeedback(SearchFeedbacks(db.feedbacks, search)[i].id) == Some(db.GetFeedbacks(search)[i])
  {
    var rows := SearchFeedbacks(db.feedbacks, search);
    forall i | 0 <= i < |rows|
      ensures db.GetFeedback(rows[i].id) == Some(db.GetFeedbacks(search)[i])
    {
      SearchFeedbacksSelects(db.feedbacks, search);
      SerialFind(db.feedbacks, FeedbackId, db.nextFeedbackId, rows[i]);
    }
  }

  /** After `deleteFeedback(id)` no row has that id and every other row is still there. */
  lemma DeleteFeedbackRemovesOnlyThatRow(feedbacks: seq<Feedback>, id: int)
    ensures forall i :: 0 <= i < |feedbacks| ==>
      (feedbacks[i] in Filter(feedbacks, HasIdOtherThan(FeedbackId, id)) <==> feedbacks[i].id != id)
    ensures forall f :: f in Filter(feedbacks, HasIdOtherThan(FeedbackId, id)) ==> f in feedbacks && f.id != id
  {
    FilterMembership(feedbacks, HasIdOtherThan(FeedbackId, id));
  }
}

=== FILE: wrappers.dfy ===
/** The optional value that stands for TypeScript's `T | undefined`. */
module Wrappers {

  datatype Option<+T> = None | Some(value: T) {

    /** The wrapped value, or `default` when there is none. For an optional integer id this is what `id || default` gives, since a present id of 0 yields 0 either way. */
    function GetOr(default: T): T {
      match this
      case Some(v) => v
      case None => default
    }
  }

  /** The first element of a sequence, as `results[0]` reads it: undefined on an empty result. */
  function First<T>(s: seq<T>): (r: Option<T>)
    ensures r.None? <==> s == []
    ensures r.Some? ==> r.value == s[0]
  {
    if s == [] then None else Some(s[0])
  }
}
